=== FILE: README.md ===
# Client-side state of the ForeSite AI site and admin panel

The site is a marketing front end with an admin panel over a hosted
database, object storage and auth service. This project models the logic the
browser code wraps around the remote calls, as pure functions over immutable
records:

- **The admin managers** (services, industries, industry sections, posts).
  Each keeps an edit state `editing: string | null` and a form record. A
  submit updates the edited row or inserts a new one with a foreign key
  attached; success resets the form and leaves edit mode, an error leaves
  everything as it was. Delete needs a confirmation. Two managers stage an
  uploaded image's public URL into the form. The shared pattern is the
  generic `Crud` module; each manager module supplies its form, its defaults
  and its payloads.
- **The services feature-list editor**: append an empty row, replace a row,
  remove a row, and on save drop every line whose JavaScript `trim()` is
  empty, keeping the rest in order.
- **The public detail pages**: a route parameter leads to a single-row
  lookup, then to a "not found" view or the row. The industry page runs a
  dependent query for its sections only after a hit. Icons are looked up by
  name with a fixed default, and hero images come from a fixed six-entry
  table.
- **The auth gate**: the redirect and render rules of `/admin` and `/auth`
  over `(loading, user, isAdmin)`, and the sign-in button's busy flag.

Every remote call is a parameter of type `Outcome<T>` (`Ok(data)` or `Err`)
that carries what the backend answered. A `confirm()` dialog is a boolean
argument. The `Math.random()` file-name stem is a string argument. A public
URL is an opaque string. `editing` is an `Option<string>` read with
JavaScript truthiness (`Remote.Truthy`), so an empty id counts as "not
editing", just as `if (editing)` does.

Modules: `Remote` (outcomes, options, truthiness), `Text` (JavaScript
`trim` and `split`, file extensions), `Entities` (table rows), `Listing`
(the `industry_details` query: filter by industry, order by `order_index`),
`Crud` (the shared editor state machine), `Storage` (upload paths), one
module per manager, `ServiceDetail`, `IndustryDetail` and `AuthGate`.

Two details of the code that the model follows exactly:
- The insert branch of every submit never clears `editing`. It is already
  falsy there, so `Crud.Settle` leaves it as it was.
- The industry page looks its row up by the `industryId` parameter, matched
  against the `id` column, not by slug. See Findings.

## Model

| member | source | states |
|---|---|---|
| Text.Trim | src/components/admin/ServicesManager.tsx:54 | `f.trim()` is the slice of `f` left once a prefix and a suffix made only of ECMAScript white space and line terminators are removed; it is empty exactly when every character of `f` is such a character, and a non-empty result starts and ends with another character |
| Text.Split | src/components/admin/IndustriesManager.tsx:57 | `name.split(".")` has at least one segment, no segment contains the separator, and joining the segments with the separator gives `name` back |
| Text.FileExtension | src/components/admin/IndustriesManager.tsx:57 | `split(".").pop()` is a dot-free suffix of the file name: the whole name when it has no dot, otherwise the text right after its last dot |
| Storage.UploadPath | src/components/admin/IndustriesManager.tsx:57-59 | an upload path is the entity prefix, a `/`, the random stem, a `.` and the original extension |
| Storage.UploadKeepsExtension | src/components/admin/PostsManager.tsx:60-62 | whatever the random stem (which itself contains a dot), the stored object has the same extension as the uploaded file |
| Listing.OfIndustry | src/components/admin/IndustryDetailsManager.tsx:41 | `.eq("industry_id", id)` returns only rows of that industry, and never more rows than the table has |
| Listing.OfIndustryKeepsAll | src/components/admin/IndustryDetailsManager.tsx:41 | the filter keeps every row of that industry, each as often as the table holds it, and a row is in the result exactly when it is in the table and belongs to the industry |
| Listing.Insert | src/components/admin/IndustryDetailsManager.tsx:42 | placing one row into a list sorted by `order_index` keeps it sorted and adds exactly that row |
| Listing.SortByOrderIndex | src/components/admin/IndustryDetailsManager.tsx:42 | `.order("order_index", ascending)` returns a permutation of its input, ascending by `order_index` |
| Listing.SectionsOf | src/components/admin/IndustryDetailsManager.tsx:37-42 | the sections listing holds exactly the given industry's rows, each with its multiplicity, ascending by `order_index` |
| Crud.PlanWrite | src/components/admin/ServicesManager.tsx:57-74 | a submit issues an update keyed by the edited id exactly when `editing` is truthy, otherwise an insert of the new row |
| Crud.Settle | src/components/admin/ServicesManager.tsx:63-81 | a successful write resets the form to the defaults, leaves edit mode and refetches; a failed one leaves id and form untouched and does not refetch |
| Crud.RetryIssuesSameWrite | src/components/admin/PostsManager.tsx:90-91 | after a failed write, the next submit issues exactly the same write again |
| Crud.SuccessLeavesCreateMode | src/components/admin/PostsManager.tsx:93-97 | after a successful write, the next submit is an insert |
| Crud.Cancel | src/components/admin/IndustriesManager.tsx:211-214 | Cancel leaves edit mode with the form at its defaults |
| Crud.CancelThenSubmitInserts | src/components/admin/IndustriesManager.tsx:211-214 | after Cancel the next submit inserts, whatever was being edited |
| Crud.Delete | src/components/admin/IndustryDetailsManager.tsx:93-103 | a delete is issued, by that id, exactly when the dialog was confirmed; the list is refetched exactly when a confirmed delete succeeded |
| Crud.Refresh | src/components/admin/ServicesManager.tsx:35-47 | a list fetch always ends loading; an error keeps the previous rows, a success shows the returned rows, or none for a null answer |
| ServicesManager.AddFeature | src/components/admin/ServicesManager.tsx:109-111 | Add Feature puts exactly one `""` after the existing rows; earlier rows and the other fields are unchanged |
| ServicesManager.UpdateFeature | src/components/admin/ServicesManager.tsx:113-117 | editing row i sets it to the typed value; the length, every other row and the other fields are unchanged |
| ServicesManager.DropIndex | src/components/admin/ServicesManager.tsx:120 | the index filter is the list without position i when i is in range, and the unchanged list otherwise |
| ServicesManager.RemoveFeature | src/components/admin/ServicesManager.tsx:119-122 | Remove on row i shrinks the list by one and keeps the other rows in order; an index outside the list changes nothing; other fields are untouched |
| ServicesManager.RemoveUndoesAdd | src/components/admin/ServicesManager.tsx:109-122 | removing the row just added restores the form |
| ServicesManager.UpdateRestores | src/components/admin/ServicesManager.tsx:113-117 | typing a row's old text back restores the form |
| ServicesManager.KeepFilled | src/components/admin/ServicesManager.tsx:54 | the saved features contain no line whose trim is empty, and they contain every non-blank line of the form and nothing else |
| ServicesManager.KeepFilledAppend | src/components/admin/ServicesManager.tsx:54 | the save filter distributes over concatenation: blank lines are dropped where they stand and the others keep their relative order |
| ServicesManager.KeepFilledSingle | src/components/admin/ServicesManager.tsx:54 | a single line survives the save filter exactly when it is not blank |
| ServicesManager.KeepFilledMatchesTrim | src/components/admin/ServicesManager.tsx:54 | a feature line survives the save filter exactly when `f.trim()` is not `""` |
| ServicesManager.KeepFilledIdempotent | src/components/admin/ServicesManager.tsx:52-55 | normalising a saved features list again changes nothing |
| ServicesManager.KeepFilledOfFilled | src/components/admin/ServicesManager.tsx:54 | a list without blank lines passes the save filter unchanged |
| ServicesManager.Payload | src/components/admin/ServicesManager.tsx:52-55 | the saved service carries the form's title, description and icon, and exactly its non-blank features |
| ServicesManager.SubmitWrite | src/components/admin/ServicesManager.tsx:57-74 | the submit updates the edited service or inserts a new one; either way the payload is the normalised form |
| ServicesManager.Submit | src/components/admin/ServicesManager.tsx:63-81 | success resets the form to `{"", "", "MessageSquare", [""]}`, leaves edit mode and refetches; an error changes nothing |
| ServicesManager.Edit | src/components/admin/ServicesManager.tsx:86-94 | Edit targets the service's id and copies its fields; a service without features gets one empty row, so the form always has one |
| ServicesManager.CancelEdit | src/components/admin/ServicesManager.tsx:195-198 | Cancel clears `editing` and resets the form to the service defaults |
| ServicesManager.EditThenSaveRoundTrip | src/components/admin/ServicesManager.tsx:52-94 | opening a stored service without blank features and saving it unchanged updates that service with exactly its stored fields, an empty feature list included |
| IndustryDetailsManager.Mount | src/components/admin/IndustryDetailsManager.tsx:24-31 | a fresh section editor is loading, has no rows, is not editing and shows `{"", "", 0}` |
| IndustryDetailsManager.FetchSections | src/components/admin/IndustryDetailsManager.tsx:37-50 | after a successful fetch the list holds only the manager's own industry's sections, ascending by `order_index`; an error keeps the old list; loading ends either way |
| IndustryDetailsManager.SubmitWrite | src/components/admin/IndustryDetailsManager.tsx:55-72 | an insert carries the form plus `industry_id` set to the manager's industry; an update is keyed by the edited section and carries only the form |
| IndustryDetailsManager.Submit | src/components/admin/IndustryDetailsManager.tsx:60-79 | success resets the form to `{"", "", 0}`, leaves edit mode and refetches the sections; an error leaves the manager unchanged and refetches nothing |
| IndustryDetailsManager.Edit | src/components/admin/IndustryDetailsManager.tsx:84-91 | Edit targets the section's id and copies its title, content and order exactly |
| IndustryDetailsManager.EditThenSaveRoundTrip | src/components/admin/IndustryDetailsManager.tsx:55-91 | saving an opened section unchanged updates that section with its own values |
| IndustryDetailsManager.CancelEdit | src/components/admin/IndustryDetailsManager.tsx:155-158 | Cancel clears `editing` and resets the form to `{"", "", 0}` |
| IndustryDetailsManager.WithoutId | src/components/admin/IndustryDetailsManager.tsx:96 | `.delete().eq("id", id)` leaves exactly the rows whose id is another one |
| IndustryDetailsManager.DeleteSection | src/components/admin/IndustryDetailsManager.tsx:93-103 | a delete click leaves the manager unchanged unless it was confirmed and succeeded; a refetch that fails keeps the old list; the form and edit state are never touched |
| IndustryDetailsManager.DeleteThenRefetch | src/components/admin/IndustryDetailsManager.tsx:93-103 | the section list changes only after a confirmed, successful delete, and then shows every section of the industry except the deleted one |
| IndustriesManager.StartUpload | src/components/admin/IndustriesManager.tsx:52-63 | with no file nothing changes; with a file `uploading` is raised and the object goes to `industries/<stem>.<ext>` |
| IndustriesManager.FinishUploadAsWritten | src/components/admin/IndustriesManager.tsx:65-75 | as written, a successful upload writes the URL into the form captured when the upload began; a failure leaves the form; `uploading` ends either way |
| IndustriesManager.UploadOverwritesConcurrentEdit | src/components/admin/IndustriesManager.tsx:72 | as written, a name typed while the upload is in flight is reverted when the upload succeeds |
| IndustriesManager.FinishUpload | src/components/admin/IndustriesManager.tsx:65-75 | a successful upload changes only `image_url`, to the public URL; a failed one leaves the form; `uploading` ends either way |
| IndustriesManager.UploadKeepsConcurrentEdit | src/components/admin/IndustriesManager.tsx:65-75 | with the current form, edits made during an upload survive it and only `image_url` changes |
| IndustriesManager.UploadBlocksSubmit | src/components/admin/IndustriesManager.tsx:56-75 | submit is disabled from the start of an upload until it resolves, and enabled again after either outcome |
| IndustriesManager.SubmitWrite | src/components/admin/IndustriesManager.tsx:81-98 | the submit updates the edited industry with the form, or inserts the form |
| IndustriesManager.Submit | src/components/admin/IndustriesManager.tsx:87-106 | success resets the form to `{"", "", "Factory", ""}`, leaves edit mode and refetches the list; an error changes nothing and refetches nothing |
| IndustriesManager.Edit | src/components/admin/IndustriesManager.tsx:110-118 | Edit targets the industry's id, copies name, description and icon, and a null image becomes `""` |
| IndustriesManager.EditThenSaveRoundTrip | src/components/admin/IndustriesManager.tsx:81-118 | opening an industry and saving it unchanged updates that industry with its own name, description, icon and image; a stored null image is written back as `""` |
| IndustriesManager.CancelEdit | src/components/admin/IndustriesManager.tsx:211-214 | Cancel clears `editing` and resets the form to the industry defaults |
| IndustriesManager.Render | src/components/admin/IndustriesManager.tsx:133-150 | while loading the manager shows its loading text; then a selected industry shows that industry's section editor, and otherwise the list shows |
| IndustriesManager.ShowSections | src/components/admin/IndustriesManager.tsx:237 | Details selects that industry and leaves the form and upload state alone |
| IndustriesManager.Back | src/components/admin/IndustriesManager.tsx:142 | Back clears the selection and leaves the form alone |
| IndustriesManager.DetailsThenBack | src/components/admin/IndustriesManager.tsx:137-149 | Details opens that industry's section editor; Back returns to the list with the form as it was |
| PostsManager.StartUpload | src/components/admin/PostsManager.tsx:55-66 | with no file nothing changes; with a file `uploading` is raised and the object goes to `posts/<stem>.<ext>` |
| PostsManager.FinishUploadAsWritten | src/components/admin/PostsManager.tsx:68-78 | as written, a successful upload writes the URL into the form captured when the upload began; `uploading` ends either way |
| PostsManager.UploadOverwritesConcurrentEdit | src/components/admin/PostsManager.tsx:75 | as written, a title typed while the upload is in flight is reverted when the upload succeeds |
| PostsManager.FinishUpload | src/components/admin/PostsManager.tsx:68-78 | a successful upload stages only `image_url`; a failed one leaves the form; `uploading` ends either way |
| PostsManager.UploadKeepsConcurrentEdit | src/components/admin/PostsManager.tsx:68-78 | with the current form, edits made during an upload survive it and only `image_url` changes |
| PostsManager.UploadBlocksSubmit | src/components/admin/PostsManager.tsx:55-78 | submit (`disabled={uploading}`) is disabled from the start of an upload until it resolves, and enabled again after either outcome |
| PostsManager.SubmitWrite | src/components/admin/PostsManager.tsx:84-101 | an insert carries the form and `created_by` set to the signed-in user's id (absent without a user); an update is keyed by the edited post and carries just the form |
| PostsManager.Submit | src/components/admin/PostsManager.tsx:90-108 | success resets all five fields to `""`, leaves edit mode and refetches the list; an error changes nothing and refetches nothing |
| PostsManager.Edit | src/components/admin/PostsManager.tsx:113-122 | Edit targets the post's id, copies title, summary and category, and a missing content or image becomes `""` |
| PostsManager.EditThenSaveIsUpdate | src/components/admin/PostsManager.tsx:84-122 | saving an opened post is an update of that post, never an insert stamped with a new author, and it writes back the post's own fields, a stored null content or image as `""` |
| PostsManager.CancelEdit | src/components/admin/PostsManager.tsx:209-210 | Cancel clears `editing` and resets all five fields to `""` |
| ServiceDetail.Fetch | src/pages/ServiceDetail.tsx:41-61 | without an id no query runs and the page stays as it was; with one, exactly that lookup runs and loading ends; only a found row is stored, so an error or a miss leaves `service` as it was (null on a first visit) |
| ServiceDetail.GetIcon | src/pages/ServiceDetail.tsx:63-66 | an icon name resolves to the library's icon when it exists and to `MessageSquare` otherwise; the lookup never fails |
| ServiceDetail.GetIconAlwaysResolves | src/pages/ServiceDetail.tsx:63-66 | as long as the library exports `MessageSquare`, every icon name resolves to a component the library exports, so the page never renders a missing icon |
| ServiceDetail.HeroImage | src/pages/ServiceDetail.tsx:23-30 | the lookup gives an image for exactly the six seeded titles, the inherited `Object.prototype` property for a title such as `constructor` or `toString`, and `undefined` for any other title |
| ServiceDetail.HeroShownFor | src/pages/ServiceDetail.tsx:89-97 | the hero block renders exactly for the six seeded titles and the names of inherited properties; for `constructor` it renders with no image behind it |
| ServiceDetail.Render | src/pages/ServiceDetail.tsx:68-97 | the spinner shows exactly while loading; "Service not found" shows exactly when loading ended without a service; otherwise the service shows with its resolved icon and image |
| ServiceDetail.VisitResolves | src/pages/ServiceDetail.tsx:41-86 | a visit with an id issues one lookup and ends on "not found" after an error or a miss, and on the found service after a hit |
| IndustryDetail.Fetch | src/pages/IndustryDetail.tsx:32-59 | the lookup by the `id` column runs first; the sections query runs exactly when the industry was found; an error or a miss leaves the page's industry and sections as they were; a hit shows the row found and exactly that industry's sections, ascending by `order_index`, or none when that query fails |
| IndustryDetail.Render | src/pages/IndustryDetail.tsx:61-79 | the spinner shows exactly while loading; "Industry not found" shows exactly when loading ended without an industry |
| IndustryDetail.RouteParams | src/App.tsx:38 | a visit to `/industries/<segment>` supplies exactly one parameter, `slug`, holding the segment |
| IndustryDetail.Param | src/pages/IndustryDetail.tsx:23 | reading a route parameter gives its value when the route declares it and nothing otherwise |
| IndustryDetail.VisitAsWritten | src/pages/IndustryDetail.tsx:23-33 | as written, the page reads `industryId`, which the route never supplies, so no query is issued and the page stays as mounted |
| IndustryDetail.AsWrittenNeverLoads | src/pages/IndustryDetail.tsx:61-67 | as written, every visit stays on the spinner |
| IndustryDetail.Visit | src/pages/IndustryDetail.tsx:32-79 | reading the declared parameter, every visit issues the lookup by `id` and leaves the spinner: "not found" after an error or a miss, otherwise the industry found with exactly its own sections, ascending by `order_index`, or with none when the sections query fails |
| AuthGate.DashboardRedirect | src/pages/AdminDashboard.tsx:17-21 | the dashboard sends the visitor to `/auth` exactly when loading is over and there is no user or no admin flag, never while loading |
| AuthGate.RenderDashboard | src/pages/AdminDashboard.tsx:23-35 | the spinner shows exactly while loading; nothing renders for a settled non-admin; the managers render exactly for a settled admin |
| AuthGate.DashboardShownIffNotRedirected | src/pages/AdminDashboard.tsx:17-35 | the managers show exactly when loading is over and no redirect happens; whenever the page redirects it renders nothing |
| AuthGate.AuthRedirect | src/pages/Auth.tsx:19-23 | the sign-in page sends the visitor to `/admin` exactly when there is a user with the admin flag |
| AuthGate.NoRedirectLoop | src/pages/Auth.tsx:19-23 | in no state do `/auth` and `/admin` both redirect, so the two pages never send the visitor to each other |
| AuthGate.SettledStateHasOneHome | src/pages/AdminDashboard.tsx:17-21 | once loading is over exactly one of the two pages redirects |
| AuthGate.BeginSignIn | src/pages/Auth.tsx:25-27 | submitting the sign-in form sets `isLoading`, which disables the button, before calling sign-in |
| AuthGate.FinishSignIn | src/pages/Auth.tsx:29-45 | both the error and the success outcome reset `isLoading` |
| AuthGate.SignInRoundTrip | src/pages/Auth.tsx:25-45 | the button is disabled while a sign-in is in flight and enabled again after it, whatever the outcome |

## Left out

- Database, storage and auth calls (select, insert, update, delete, upload, getPublicUrl, signIn) are external I/O. Each is a parameter holding its outcome. The write that a successful submit or delete makes is not applied to any table. So "create, then list" is not modelled: it is the database's behaviour. Deleting a section and listing again is modelled (`IndustryDetailsManager.DeleteSection`); the other three managers' delete-then-list is not.
- Listing.SortByOrderIndex: the database does not promise an order among sections with equal `order_index`. The model breaks ties stably, and its contract states only what holds for every tie order.
- Crud.Refresh: the services and industries lists (ordered by `created_at`) and the posts list (ordered by `published_date` descending) are sorted by the database. The model takes each answer as given.
- ServicesManager.UpdateFeature: requires an index inside the list, because the form only offers its rendered rows. An index past the end would give a JavaScript array with holes, which has no meaning for a list of strings.
- Toasts, `console.error`, JSX, CSS, animation delays and browser-native required-field validation are not modelled.
- `parseInt` on the order field can give `NaN`. `order_index` is an `int` here.
- The auth context is not part of this model. `(loading, user, isAdmin)` is an input, and so is the sign-in outcome.
- Icons: the icon library is modelled as the set of names it exports, and an icon component is modelled by its name. Hero images are modelled by their asset file names.
- State updates after a component has unmounted, and submits that overlap other submits, are not modelled. Both are about asynchronous interleaving. The one interleaving that is modelled is an edit typed during an upload (see Findings).
- Static pages, the news list and post page, the route table apart from the industry route's parameter name, the contact-email function and the favicon script are thin rendering or I/O. They are not part of this model.
- The services, industries and posts managers delete the same way as the section manager. All four are the one function `Crud.Delete`.

- IndustryDetail.Visit: the corrected page resolves the URL segment against the `id` column, as the lookup in the code does. Resolving industries by a human-readable slug would need a `slug` column, which the `industries` rows in this code do not have, so that design is not modelled.
- IndustryDetail.Fetch and IndustryDetail.Visit require that a row the lookup returns has the key as its `id`. This is the database's promise for `.eq("id", key)`, not something the page checks.
- ServiceDetail.GetIconAlwaysResolves: the library is taken to be its icon components only. The `lucide-react` namespace also exports values that are not icons (such as its icon index and its icon factory), and a service whose icon name is one of those would render that value; the model does not represent them.
- ServiceDetail.GetIcon: the icon library is a module namespace object, which has no inherited properties, so unlike `ServiceDetail.HeroImage` no name resolves to an inherited member.

## Findings

| source | as written | input that shows it | evidently intended | confidence | as-written member | corrected member |
|---|---|---|---|---|---|---|
| src/pages/IndustryDetail.tsx:23 | the page reads the route parameter `industryId`, but the route at src/App.tsx:38 declares it as `slug`; the fetch returns at line 33 before any query and `loading` is never cleared | any visit to `/industries/<id of a stored industry>` | the page reads the parameter its route declares; since the lookup matches the `id` column, the correction takes the URL segment to carry the industry's id, and the page resolves to that industry with its sections or to "not found" | high (not executed) | IndustryDetail.VisitAsWritten | IndustryDetail.Visit |
| src/components/admin/IndustriesManager.tsx:72 | on success the handler stages `{ ...formData, image_url }` using the `formData` captured when the upload began | choose an image, type a new name while the upload is in flight, let the upload succeed: the name reverts | stage only `image_url` into the form as it is when the upload resolves | medium (not executed) | IndustriesManager.FinishUploadAsWritten | IndustriesManager.FinishUpload |
| src/components/admin/PostsManager.tsx:75 | the same stale `{ ...formData, image_url }` in the posts upload handler | choose an image, edit the title during the upload, let it succeed: the title reverts | stage only `image_url` into the current form | medium (not executed) | PostsManager.FinishUploadAsWritten | PostsManager.FinishUpload |

=== FILE: auth_gate.dfy ===
/** The client-side gate between the sign-in page (`/auth`) and the admin
    dashboard (`/admin`), both driven by the auth context's
    `(loading, user, isAdmin)`, and the sign-in form's busy flag.
 */
module AuthGate {
  import opened Remote
  import opened Entities

  /** The auth context as the pages see it. */
  datatype Session = Session(loading: bool, user: Option<User>, isAdmin: bool)

  /** A signed-in administrator. */
  predicate IsAdminSession(s: Session) {
    s.user.Some? && s.isAdmin
  }

  /* ---------- the dashboard ---------- */

  /** Where the dashboard's effect navigates, if anywhere. */
  function DashboardRedirect(s: Session): (to: Option<string>)
    ensures to.Some? ==> to.value == "/auth"
    ensures to.Some? <==> !s.loading && !IsAdminSession(s)
    ensures s.loading ==> to.None?
  {
    if !s.loading && (s.user.None? || !s.isAdmin) then Some("/auth") else None
  }

  /** What the dashboard renders. */
  datatype DashboardView = Spinner | Nothing | Dashboard

  /** The dashboard render: the spinner while loading; nothing for a
      visitor who is not an administrator; the managers otherwise. */
  function RenderDashboard(s: Session): (v: DashboardView)
    ensures v == Spinner <==> s.loading
    ensures v == Nothing <==> !s.loading && !IsAdminSession(s)
    ensures v == Dashboard <==> !s.loading && IsAdminSession(s)
  {
    if s.loading then Spinner
    else if s.user.None? || !s.isAdmin then Nothing
    else Dashboard
  }

  /** The dashboard's content shows exactly when it does not redirect and
      loading is over; whenever it redirects it renders nothing. */
  lemma DashboardShownIffNotRedirected(s: Session)
    ensures RenderDashboard(s) == Dashboard <==> !s.loading && DashboardRedirect(s).None?
    ensures DashboardRedirect(s).Some? ==> RenderDashboard(s) == Nothing
  {
  }

  /* ---------- the sign-in page ---------- */

  /** Where the sign-in page's effect navigates, if anywhere. */
  function AuthRedirect(s: Session): (to: Option<string>)
    ensures to.Some? ==> to.value == "/admin"
    ensures to.Some? <==> IsAdminSession(s)
  {
    if s.user.Some? && s.isAdmin then Some("/admin") else None
  }

  /** The two pages never send the visitor to each other in the same state,
      so they cannot bounce between each other. */
  lemma NoRedirectLoop(s: Session)
    ensures !(DashboardRedirect(s).Some? && AuthRedirect(s).Some?)
  {
  }

  /** Once loading is over, exactly one of the two pages redirects: the
      visitor settles on `/admin` as an administrator and on `/auth`
      otherwise. */
  lemma SettledStateHasOneHome(s: Session)
    requires !s.loading
    ensures DashboardRedirect(s).Some? != AuthRedirect(s).Some?
  {
  }

  /** The sign-in form: `isLoading` while a sign-in is in flight. */
  datatype SignInForm = SignInForm(isLoading: bool, email: string, password: string)

  /** The sign-in button is disabled while a sign-in is in flight. */
  predicate SignInDisabled(f: SignInForm) {
    f.isLoading
  }

  /** Submitting raises `isLoading` before calling sign-in and keeps the
      credentials. */
  function BeginSignIn(f: SignInForm): (r: SignInForm)
    ensures SignInDisabled(r)
    ensures r.email == f.email && r.password == f.password
  {
    f.(isLoading := true)
  }

  /** Sign-in resolved: both the error and the success branch lower
      `isLoading`; the credentials stay. */
  function FinishSignIn(f: SignInForm, outcome: Outcome<User>): (r: SignInForm)
    ensures !SignInDisabled(r)
    ensures r.email == f.email && r.password == f.password
  {
    match outcome
    case Err => f.(isLoading := false)
    case Ok(_) => f.(isLoading := false)
  }

  /** A sign-in attempt keeps the button disabled while in flight and
      enables it again whatever the outcome. */
  lemma SignInRoundTrip(f: SignInForm, outcome: Outcome<User>)
    ensures SignInDisabled(BeginSignIn(f))
    ensures FinishSignIn(BeginSignIn(f), outcome) == f.(isLoading := false)
  {
  }
}

=== FILE: crud.dfy ===
/** The create/edit/delete pattern every admin manager repeats: an edit
    state `editing: string | null` beside a form record, a submit that
    updates the edited row or inserts a new one, a confirmed delete, and a
    list that is refetched after every successful write.
 */
module Crud {
  import opened Remote

  /** The form of a manager together with the id of the row it edits. */
  datatype Editor<F> = Editor(editing: Option<string>, form: F)

  /** `if (editing)`: the submit updates a row rather than inserting one. */
  predicate IsEditing<F>(ed: Editor<F>) {
    Truthy(ed.editing)
  }

  /** The write a submit issues: an update of the edited row, or an insert. */
  datatype Write<U, I> = Update(id: string, changes: U) | Insert(row: I)

  /** Choose the write from the edit state: update keyed by the edited id,
      otherwise insert. */
  function PlanWrite<F, U, I>(ed: Editor<F>, changes: U, row: I): (w: Write<U, I>)
    ensures w.Update? <==> IsEditing(ed)
    ensures w.Update? ==> w.id == ed.editing.value && w.changes == changes
    ensures w.Insert? ==> w.row == row
  {
    if IsEditing(ed) then Update(ed.editing.value, changes) else Insert(row)
  }

  /** A state (an editor, or a whole manager) after a write resolved, and
      whether its list is refetched. */
  datatype Settled<S> = Settled(state: S, refetch: bool)

  /** A submit's write resolved. Success resets the form to `blank`, leaves
      edit mode and refetches; an error leaves the editor exactly as it was,
      so that the admin can retry. The insert branch never touches
      `editing`, which is falsy there already. */
  function Settle<F>(ed: Editor<F>, blank: F, outcome: Outcome<()>): (r: Settled<Editor<F>>)
    ensures outcome.Ok? ==> r.state.form == blank && !IsEditing(r.state) && r.refetch
    ensures outcome.Ok? && !IsEditing(ed) ==> r.state.editing == ed.editing
    ensures outcome.Ok? && IsEditing(ed) ==> r.state.editing == None
    ensures outcome.Err? ==> r.state == ed && !r.refetch
  {
    match outcome
    case Err => Settled(ed, false)
    case Ok(_) => Settled(Editor(if IsEditing(ed) then None else ed.editing, blank), true)
  }

  /** After a failed write the same write is issued again on the next
      submit. */
  lemma RetryIssuesSameWrite<F, U, I>(ed: Editor<F>, blank: F, changes: U, row: I)
    ensures PlanWrite(Settle(ed, blank, Err).state, changes, row) == PlanWrite(ed, changes, row)
  {
  }

  /** After a successful write the next submit inserts. */
  lemma SuccessLeavesCreateMode<F, U, I>(ed: Editor<F>, blank: F, changes: U, row: I)
    ensures PlanWrite(Settle(ed, blank, Ok(())).state, changes, row) == Insert(row)
  {
  }

  /** The Cancel button: reset the form and leave edit mode. */
  function Cancel<F>(blank: F): (r: Editor<F>)
    ensures !IsEditing(r) && r.form == blank
  {
    Editor(None, blank)
  }

  /** After Cancel the next submit inserts, whatever was being edited. */
  lemma CancelThenSubmitInserts<F, U, I>(blank: F, changes: U, row: I)
    ensures PlanWrite(Cancel(blank), changes, row) == Insert(row)
  {
  }

  /** What a delete click does: the id deleted (if any) and whether the
      list is refetched. */
  datatype Deletion = Deletion(deleted: Option<string>, refetch: bool)

  /** `handleDelete(id)`: nothing happens unless the confirmation dialog was
      accepted; then the row is deleted by id, and only a successful delete
      refetches. The edit state is not touched. */
  function Delete(id: string, confirmed: bool, outcome: Outcome<()>): (r: Deletion)
    ensures r.deleted.Some? <==> confirmed
    ensures r.deleted.Some? ==> r.deleted.value == id
    ensures r.refetch <==> confirmed && outcome.Ok?
  {
    if !confirmed then Deletion(None, false)
    else Deletion(Some(id), outcome.Ok?)
  }

  /** A manager's row list and its `loading` flag. */
  datatype Rows<T> = Rows(rows: seq<T>, loading: bool)

  /** A list fetch resolved: an error keeps the previous rows, a success
      replaces them (`data || []`); either way loading ends. */
  function Refresh<T>(l: Rows<T>, outcome: Outcome<Option<seq<T>>>): (r: Rows<T>)
    ensures !r.loading
    ensures outcome.Err? ==> r.rows == l.rows
    ensures outcome.Ok? && outcome.data.Some? ==> r.rows == outcome.data.value
    ensures outcome.Ok? && outcome.data.None? ==> r.rows == []
  {
    match outcome
    case Err => Rows(l.rows, false)
    case Ok(data) => Rows(data.GetOr([]), false)
  }
}

=== FILE: entities.dfy ===
/** The rows of the hosted tables as the client sees them (`select("*")`).
    Identifiers are the database's opaque keys, carried as strings.
 */
module Entities {
  import opened Remote

  /** A row of `services`. */
  datatype Service = Service(
    id: string,
    title: string,
    description: string,
    icon: string,
    features: seq<string>)

  /** A row of `industries`; `image_url` is nullable. */
  datatype Industry = Industry(
    id: string,
    name: string,
    description: string,
    icon: string,
    image_url: Option<string>)

  /** A row of `industry_details`: one content section of an industry. */
  datatype IndustryDetail = IndustryDetail(
    id: string,
    industry_id: string,
    section_title: string,
    content: string,
    order_index: int)

  /** A row of `posts`; `content` and `image_url` are nullable. */
  datatype Post = Post(
    id: string,
    title: string,
    summary: string,
    content: Option<string>,
    category: string,
    image_url: Option<string>,
    published_date: string)

  /** The signed-in user of the auth session. */
  datatype User = User(id: string)
}

=== FILE: industries_manager.dfy ===
/** The admin editor for `industries`: a form with a name, a description,
    an icon name and an image staged by upload, and a switch to the section
    editor of one industry.

    The upload handler here and the one in PostsManager are two copies in
    the source (IndustriesManager.tsx and PostsManager.tsx), differing only
    in the path prefix and the form they stage into; the model keeps one
    copy per editor so that each follows its own file.
 */
module IndustriesManager {
  import opened Remote
  import opened Text
  import opened Entities
  import opened Crud
  import Storage

  /** The form record; `image_url` is `""` when no image is staged. */
  datatype Form = Form(name: string, description: string, icon: string, image_url: string)

  /** The form after mount, Cancel and every successful save. */
  const Blank: Form := Form("", "", "Factory", "")

  /** Uploads go under this prefix of the shared bucket. */
  const UploadPrefix: string := "industries"

  /** The manager: edit state, the upload-in-flight flag and the industry
      whose sections are open (if any). */
  datatype Manager = Manager(editor: Editor<Form>, uploading: bool, selected: Option<string>)

  /** Freshly mounted. */
  const Initial: Manager := Manager(Editor(None, Blank), false, None)

  /* ---------- image upload ---------- */

  /** An upload the handler started: the object path it writes and the
      form it captured when it started. */
  datatype Upload = Upload(path: string, captured: Form)

  /** `handleImageUpload` up to the storage call. Without a file nothing
      happens; otherwise `uploading` is raised and the object path is
      `industries/<stem>.<ext>`. */
  function StartUpload(m: Manager, file: Option<string>, stem: string): (r: (Manager, Option<Upload>))
    ensures file.None? ==> r.0 == m && r.1.None?
    ensures file.Some? ==> r.0 == m.(uploading := true) && r.1.Some?
    ensures file.Some? ==> r.1.value.captured == m.editor.form
    ensures file.Some? ==> r.1.value.path == "industries/" + stem + "." + FileExtension(file.value)
  {
    match file
    case None => (m, None)
    case Some(name) =>
      var path := Storage.UploadPath(UploadPrefix, stem, name);
      assert path == "industries/" + stem + "." + FileExtension(name) by {
        assert UploadPrefix + "/" == "industries/";
      }
      (m.(uploading := true), Some(Upload(path, m.editor.form)))
  }

  /** The storage call resolved, as the handler is written: a success
      stages the public URL into the form captured when the upload started
      (`{ ...formData, image_url }` reads the handler's closure), so any
      edit made while the upload was in flight is overwritten. */
  function FinishUploadAsWritten(m: Manager, up: Upload, publicUrl: Outcome<string>): (r: Manager)
    ensures !r.uploading
    ensures publicUrl.Ok? ==> r.editor.form == up.captured.(image_url := publicUrl.data)
    ensures publicUrl.Err? ==> r.editor == m.editor
    ensures r.editor.editing == m.editor.editing && r.selected == m.selected
  {
    match publicUrl
    case Err => m.(uploading := false)
    case Ok(url) => m.(editor := m.editor.(form := up.captured.(image_url := url)), uploading := false)
  }

  /** A name typed while the upload is in flight is lost when the upload
      succeeds. */
  lemma UploadOverwritesConcurrentEdit(m: Manager, fileName: string, stem: string, url: string)
    requires m.editor.form.name != "typed meanwhile"
    ensures
      var (busy, up) := StartUpload(m, Some(fileName), stem);
      var typed := busy.(editor := busy.editor.(form := busy.editor.form.(name := "typed meanwhile")));
      FinishUploadAsWritten(typed, up.value, Ok(url)).editor.form.name == m.editor.form.name
  {
  }

  /** The storage call resolved: a success stages the public URL into the
      current form and changes nothing else; a failure changes nothing but
      `uploading`, which ends in either case. */
  function FinishUpload(m: Manager, publicUrl: Outcome<string>): (r: Manager)
    ensures !r.uploading
    ensures publicUrl.Ok? ==> r.editor.form == m.editor.form.(image_url := publicUrl.data)
    ensures publicUrl.Err? ==> r.editor == m.editor
    ensures r.editor.editing == m.editor.editing && r.selected == m.selected
  {
    match publicUrl
    case Err => m.(uploading := false)
    case Ok(url) => m.(editor := m.editor.(form := m.editor.form.(image_url := url)), uploading := false)
  }

  /** With the current form, an edit made during the upload survives it. */
  lemma UploadKeepsConcurrentEdit(m: Manager, fileName: string, stem: string, name: string, url: string)
    ensures
      var (busy, _) := StartUpload(m, Some(fileName), stem);
      var typed := busy.(editor := busy.editor.(form := busy.editor.form.(name := name)));
      FinishUpload(typed, Ok(url)).editor.form == m.editor.form.(name := name, image_url := url)
  {
  }

  /** The submit button is disabled while an upload is in flight. */
  predicate CanSubmit(m: Manager) {
    !m.uploading
  }

  /** Submit is blocked from the start of an upload until it resolves,
      whatever the outcome, and is available again afterwards if it was
      before. */
  lemma UploadBlocksSubmit(m: Manager, fileName: string, stem: string, publicUrl: Outcome<string>)
    requires CanSubmit(m)
    ensures !CanSubmit(StartUpload(m, Some(fileName), stem).0)
    ensures CanSubmit(FinishUpload(StartUpload(m, Some(fileName), stem).0, publicUrl))
  {
  }

  /* ---------- the edit state machine ---------- */

  /** `handleSubmit`'s write: update of the edited industry or insert, both
      carrying the form as it is. */
  function SubmitWrite(m: Manager): (w: Write<Form, Form>)
    ensures w.Update? <==> IsEditing(m.editor)
    ensures w.Update? ==> w.id == m.editor.editing.value && w.changes == m.editor.form
    ensures w.Insert? ==> w.row == m.editor.form
  {
    PlanWrite(m.editor, m.editor.form, m.editor.form)
  }

  /** The write of `handleSubmit` resolved: success resets the form,
      leaves edit mode and refetches the list; an error changes nothing and
      refetches nothing. */
  function Submit(m: Manager, outcome: Outcome<()>): (r: Settled<Manager>)
    ensures outcome.Ok? ==> r.state.editor.form == Form("", "", "Factory", "") && !IsEditing(r.state.editor)
    ensures outcome.Err? ==> r.state == m
    ensures r.refetch <==> outcome.Ok?
    ensures r.state.uploading == m.uploading && r.state.selected == m.selected
  {
    var step := Settle(m.editor, Blank, outcome);
    Settled(m.(editor := step.state), step.refetch)
  }

  /** `handleEdit(industry)`: edit that industry; a missing image becomes
      `""`. */
  function Edit(m: Manager, industry: Industry): (r: Manager)
    ensures r.editor.editing == Some(industry.id)
    ensures r.editor.form.name == industry.name && r.editor.form.description == industry.description
    ensures r.editor.form.icon == industry.icon
    ensures industry.image_url.Some? ==> r.editor.form.image_url == industry.image_url.value
    ensures industry.image_url.None? ==> r.editor.form.image_url == ""
    ensures r.uploading == m.uploading && r.selected == m.selected
  {
    m.(editor := Editor(Some(industry.id),
        Form(industry.name, industry.description, industry.icon, OrEmpty(industry.image_url))))
  }

  /** Opening an industry and saving it unchanged updates that industry
      with its own name, description and icon; a stored null image is
      written back as `""`. */
  lemma EditThenSaveRoundTrip(m: Manager, industry: Industry)
    requires industry.id != ""
    ensures SubmitWrite(Edit(m, industry)).Update?
    ensures SubmitWrite(Edit(m, industry)).id == industry.id
    ensures industry.image_url.Some? ==>
      SubmitWrite(Edit(m, industry)).changes == Form(industry.name, industry.description, industry.icon, industry.image_url.value)
    ensures industry.image_url.None? ==>
      SubmitWrite(Edit(m, industry)).changes == Form(industry.name, industry.description, industry.icon, "")
  {
  }

  /** The Cancel button. */
  function CancelEdit(m: Manager): (r: Manager)
    ensures r.editor.editing == None && r.editor.form == Form("", "", "Factory", "")
    ensures r.uploading == m.uploading && r.selected == m.selected
  {
    m.(editor := Cancel(Blank))
  }

  /* ---------- the sections view switch ---------- */

  /** What the manager shows. */
  datatype View = Loading | Sections(industryId: string) | Industries

  /** The render: the loading text first, then the sections editor of the
      selected industry, otherwise the industry list and form. */
  function Render(m: Manager, loading: bool): (v: View)
    ensures loading ==> v == Loading
    ensures !loading && Truthy(m.selected) ==> v == Sections(m.selected.value)
    ensures !loading && !Truthy(m.selected) ==> v == Industries
  {
    if loading then Loading
    else if Truthy(m.selected) then Sections(m.selected.value)
    else Industries
  }

  /** The "Details" button of an industry. */
  function ShowSections(m: Manager, industryId: string): (r: Manager)
    ensures r.selected == Some(industryId) && r.editor == m.editor && r.uploading == m.uploading
  {
    m.(selected := Some(industryId))
  }

  /** The "Back to Industries" button. */
  function Back(m: Manager): (r: Manager)
    ensures r.selected == None && r.editor == m.editor && r.uploading == m.uploading
  {
    m.(selected := None)
  }

  /** Details opens that industry's sections editor, and Back returns to
      the list with the form as it was. */
  lemma DetailsThenBack(m: Manager, industryId: string)
    requires industryId != ""
    ensures Render(ShowSections(m, industryId), false) == Sections(industryId)
    ensures Render(Back(ShowSections(m, industryId)), false) == Industries
    ensures Back(ShowSections(m, industryId)).editor == m.editor
  {
  }
}

=== FILE: industry_detail.dfy ===
/** The public page of one industry, `/industries/:slug`: a single-row
    lookup, then, only on a hit, the query for the industry's content
    sections ordered by `order_index`.

    The route declares its parameter as `slug` while the page reads a
    parameter named `industryId`; `VisitAsWritten` models that pairing and
    `Visit` the page reading the parameter its route declares.
 */
module IndustryDetail {
  import opened Remote
  import opened Entities
  import opened Listing

  /** The page state. */
  datatype Page = Page(loading: bool, industry: Option<Industry>, details: seq<IndustryDetail>)

  /** As mounted: loading, nothing found, no sections. */
  const Initial: Page := Page(true, None, [])

  /** The column the industry lookup matches: the row's primary key. */
  const LookupColumn: string := "id"

  /** The queries the page issues: a single-row lookup of `industries` by
      `column`, and the `industry_details` rows whose `industry_id` is the
      given one. */
  datatype Query = IndustryLookup(column: string, key: string) | SectionsQuery(industryId: string)

  /** The database's side of the lookup: a row it returns matches the key
      on the lookup column. */
  predicate LookupMatches(lookup: Outcome<Option<Industry>>, key: string) {
    lookup.Ok? && lookup.data.Some? ==> lookup.data.value.id == key
  }

  /** Some query of `queries` asks for sections. */
  predicate IssuesSectionsQuery(queries: seq<Query>) {
    exists q :: q in queries && q.SectionsQuery?
  }

  /** The page after `fetchIndustryData`, with the queries it issued. */
  datatype Fetched = Fetched(page: Page, queries: seq<Query>)

  /** `fetchIndustryData`. `lookup` is the outcome of the `maybeSingle`
      lookup; `sections` the `industry_details` table the dependent query
      runs against, or its error (which the page ignores: `data || []`). */
  function Fetch(p: Page, industryId: Option<string>, lookup: Outcome<Option<Industry>>,
                 sections: Outcome<seq<IndustryDetail>>): (r: Fetched)
    requires Truthy(industryId) ==> LookupMatches(lookup, industryId.value)
    ensures !Truthy(industryId) ==> r == Fetched(p, [])
    ensures Truthy(industryId) ==> !r.page.loading && |r.queries| >= 1
    ensures Truthy(industryId) ==> r.queries[0] == IndustryLookup(LookupColumn, industryId.value)
    ensures IssuesSectionsQuery(r.queries) <==> Truthy(industryId) && lookup.Ok? && lookup.data.Some?
    ensures Truthy(industryId) && !(lookup.Ok? && lookup.data.Some?) ==>
      r.page.industry == p.industry && r.page.details == p.details
    ensures Truthy(industryId) && lookup.Ok? && lookup.data.Some? ==>
      && r.page.industry == lookup.data
      && r.queries == [IndustryLookup(LookupColumn, industryId.value), SectionsQuery(lookup.data.value.id)]
      && SortedByOrderIndex(r.page.details)
      && AllOfIndustry(r.page.details, lookup.data.value.id)
      && (sections.Err? ==> r.page.details == [])
      && (sections.Ok? ==> forall d :: d in r.page.details <==> d in sections.data && d.industry_id == lookup.data.value.id)
  {
    if !Truthy(industryId) then Fetched(p, [])
    else
      var key := industryId.value;
      match lookup
      case Err => Fetched(p.(loading := false), [IndustryLookup(LookupColumn, key)])
      case Ok(None) => Fetched(p.(loading := false), [IndustryLookup(LookupColumn, key)])
      case Ok(Some(industry)) =>
        var details := match sections
          case Err => []
          case Ok(rows) => SectionsOf(rows, key);
        var queries := [IndustryLookup(LookupColumn, key), SectionsQuery(key)];
        assert queries[1] in queries;
        Fetched(Page(false, Some(industry), details), queries)
  }

  /** What the page shows. */
  datatype View = Spinner | NotFound | Shown(industry: Industry, details: seq<IndustryDetail>)

  /** The render: spinner while loading, then "Industry not found" without
      an industry, otherwise the industry and its sections. */
  function Render(p: Page): (v: View)
    ensures p.loading <==> v == Spinner
    ensures !p.loading && p.industry.None? <==> v == NotFound
    ensures v.Shown? ==> Some(v.industry) == p.industry && v.details == p.details
  {
    if p.loading then Spinner
    else match p.industry
      case None => NotFound
      case Some(i) => Shown(i, p.details)
  }

  /* ---------- the route parameter ---------- */

  /** The parameter name the route table declares for this page. */
  const RouteParam: string := "slug"

  /** The parameter name the page reads. */
  const PageParam: string := "industryId"

  /** The router's parameters for a visit to `/industries/<segment>`. */
  function RouteParams(segment: string): (params: map<string, string>)
    ensures params.Keys == {RouteParam} && params[RouteParam] == segment
  {
    map[RouteParam := segment]
  }

  /** `useParams()[name]`: absent when the route declares no such name. */
  function Param(params: map<string, string>, name: string): (v: Option<string>)
    ensures name in params <==> v.Some?
    ensures v.Some? ==> v.value == params[name]
  {
    if name in params then Some(params[name]) else None
  }

  /** A visit, as the page is written: it reads `industryId`, which the
      route never supplies, so the fetch returns before any query and the
      page stays as mounted. */
  function VisitAsWritten(segment: string, lookup: Outcome<Option<Industry>>,
                          sections: Outcome<seq<IndustryDetail>>): (r: Fetched)
    ensures r.queries == [] && r.page == Initial
  {
    assert PageParam !in RouteParams(segment) by {
      assert PageParam[0] != RouteParam[0];
    }
    Fetch(Initial, Param(RouteParams(segment), PageParam), lookup, sections)
  }

  /** Whatever the URL and whatever the database holds, the page as written
      never leaves the spinner. */
  lemma AsWrittenNeverLoads(segment: string, lookup: Outcome<Option<Industry>>,
                            sections: Outcome<seq<IndustryDetail>>)
    ensures Render(VisitAsWritten(segment, lookup, sections).page) == Spinner
  {
  }

  /** A visit with the page reading the parameter its route declares. The
      lookup matches the `id` column, so the segment is taken to carry the
      industry's id. Every visit to `/industries/<segment>` (the router
      matches only non-empty segments) issues the lookup and leaves the
      spinner: it ends on the not-found view after an error or a miss, and
      after a hit on that industry with exactly its sections, ordered, or
      with none when the sections query fails. */
  function Visit(segment: string, lookup: Outcome<Option<Industry>>,
                 sections: Outcome<seq<IndustryDetail>>): (r: Fetched)
    requires segment != ""
    requires LookupMatches(lookup, segment)
    ensures !r.page.loading
    ensures |r.queries| >= 1 && r.queries[0] == IndustryLookup(LookupColumn, segment)
    ensures !(lookup.Ok? && lookup.data.Some?) ==> Render(r.page) == NotFound
    ensures lookup.Ok? && lookup.data.Some? ==> Render(r.page) == Shown(lookup.data.value, r.page.details)
    ensures lookup.Ok? && lookup.data.Some? ==> SortedByOrderIndex(r.page.details)
    ensures lookup.Ok? && lookup.data.Some? ==> AllOfIndustry(r.page.details, lookup.data.value.id)
    ensures lookup.Ok? && lookup.data.Some? && sections.Ok? ==>
      forall d :: d in r.page.details <==> d in sections.data && d.industry_id == lookup.data.value.id
    ensures lookup.Ok? && lookup.data.Some? && sections.Err? ==> r.page.details == []
  {
    var industryId := Param(RouteParams(segment), RouteParam);
    assert industryId == Some(segment);
    Fetch(Initial, industryId, lookup, sections)
  }
}

=== FILE: industry_details_manager.dfy ===
/** The admin editor for the content sections (`industry_details`) of one
    industry: it lists that industry's sections by `order_index` and
    creates, edits and deletes them.
 */
module IndustryDetailsManager {
  import opened Remote
  import opened Entities
  import opened Listing
  import opened Crud

  /** The form record. */
  datatype Form = Form(section_title: string, content: string, order_index: int)

  /** The form after mount, Cancel and every successful save. */
  const Blank: Form := Form("", "", 0)

  /** The row an insert sends: the form plus the owning industry. */
  datatype NewSection = NewSection(section_title: string, content: string, order_index: int, industry_id: string)

  /** The manager of the sections of `industryId`. */
  datatype Manager = Manager(industryId: string, editor: Editor<Form>, sections: Rows<IndustryDetail>)

  /** Freshly mounted for `industryId`. */
  function Mount(industryId: string): (m: Manager)
    ensures m.industryId == industryId && m.sections.loading && m.sections.rows == []
    ensures !IsEditing(m.editor) && m.editor.form == Form("", "", 0)
  {
    Manager(industryId, Editor(None, Blank), Rows([], true))
  }

  /** `fetchDetails` resolved; `table` is the `industry_details` table the
      query ran against. A success lists exactly this industry's sections,
      ascending by `order_index`; an error keeps the old list. */
  function FetchSections(m: Manager, table: Outcome<seq<IndustryDetail>>): (r: Manager)
    ensures !r.sections.loading
    ensures r.industryId == m.industryId && r.editor == m.editor
    ensures table.Err? ==> r.sections.rows == m.sections.rows
    ensures table.Ok? ==> SortedByOrderIndex(r.sections.rows)
    ensures table.Ok? ==> AllOfIndustry(r.sections.rows, m.industryId)
    ensures table.Ok? ==> forall d :: d in r.sections.rows <==> d in table.data && d.industry_id == m.industryId
  {
    var answer := match table
      case Err => Err
      case Ok(rows) => Ok(Some(SectionsOf(rows, m.industryId)));
    m.(sections := Refresh(m.sections, answer))
  }

  /** `handleSubmit`'s write: an update keyed by the edited section carrying
      only the form, or an insert that attaches `industry_id`. */
  function SubmitWrite(m: Manager): (w: Write<Form, NewSection>)
    ensures w.Update? <==> IsEditing(m.editor)
    ensures w.Update? ==> w.id == m.editor.editing.value && w.changes == m.editor.form
    ensures w.Insert? ==> w.row.industry_id == m.industryId
    ensures w.Insert? ==> w.row.section_title == m.editor.form.section_title
    ensures w.Insert? ==> w.row.content == m.editor.form.content
    ensures w.Insert? ==> w.row.order_index == m.editor.form.order_index
  {
    var f := m.editor.form;
    PlanWrite(m.editor, f, NewSection(f.section_title, f.content, f.order_index, m.industryId))
  }

  /** The write of `handleSubmit` resolved: success resets the form,
      leaves edit mode and refetches the sections; an error changes
      nothing and refetches nothing. */
  function Submit(m: Manager, outcome: Outcome<()>): (r: Settled<Manager>)
    ensures outcome.Ok? ==> r.state.editor.form == Form("", "", 0) && !IsEditing(r.state.editor)
    ensures outcome.Err? ==> r.state == m
    ensures r.refetch <==> outcome.Ok?
    ensures r.state.industryId == m.industryId && r.state.sections == m.sections
  {
    var step := Settle(m.editor, Blank, outcome);
    Settled(m.(editor := step.state), step.refetch)
  }

  /** `handleEdit(detail)`: edit that section, copying its fields exactly. */
  function Edit(m: Manager, detail: IndustryDetail): (r: Manager)
    ensures r.editor.editing == Some(detail.id)
    ensures r.editor.form.section_title == detail.section_title
    ensures r.editor.form.content == detail.content
    ensures r.editor.form.order_index == detail.order_index
    ensures r.industryId == m.industryId && r.sections == m.sections
  {
    m.(editor := Editor(Some(detail.id), Form(detail.section_title, detail.content, detail.order_index)))
  }

  /** Editing a section and saving it unchanged updates that section with
      its own title, content and order. */
  lemma EditThenSaveRoundTrip(m: Manager, detail: IndustryDetail)
    requires detail.id != ""
    ensures SubmitWrite(Edit(m, detail))
         == Update(detail.id, Form(detail.section_title, detail.content, detail.order_index))
  {
  }

  /** The Cancel button. */
  function CancelEdit(m: Manager): (r: Manager)
    ensures r.editor.editing == None && r.editor.form == Form("", "", 0)
    ensures r.industryId == m.industryId && r.sections == m.sections
  {
    m.(editor := Cancel(Blank))
  }

  /* ---------- deleting a section ---------- */

  /** The `industry_details` table once the rows with that id are gone. */
  function WithoutId(table: seq<IndustryDetail>, id: string): (r: seq<IndustryDetail>)
    ensures forall d :: d in r <==> d in table && d.id != id
  {
    if |table| == 0 then []
    else
      var rest := WithoutId(table[1..], id);
      assert table == [table[0]] + table[1..];
      if table[0].id == id then rest else [table[0]] + rest
  }

  /** `handleDelete(id)` followed by the refetch it triggers. `table` is
      the table when the admin clicks; `refetch` is the outcome of the
      listing query run after a successful delete. */
  function DeleteSection(m: Manager, id: string, confirmed: bool, outcome: Outcome<()>,
                         table: seq<IndustryDetail>, refetch: Outcome<()>): (r: Manager)
    ensures r.editor == m.editor && r.industryId == m.industryId
    ensures !(confirmed && outcome.Ok?) ==> r == m
    ensures confirmed && outcome.Ok? && refetch.Err? ==> r.sections.rows == m.sections.rows
  {
    var del := Delete(id, confirmed, outcome);
    if !del.refetch then m
    else
      var answer := match refetch
        case Err => Err
        case Ok(_) => Ok(WithoutId(table, id));
      FetchSections(m, answer)
  }

  /** The list changes only after a confirmed delete that succeeded; then
      it shows every section of the industry except the deleted one. */
  lemma DeleteThenRefetch(m: Manager, id: string, confirmed: bool, outcome: Outcome<()>,
                          table: seq<IndustryDetail>)
    ensures DeleteSection(m, id, confirmed, outcome, table, Ok(())).sections.rows != m.sections.rows ==>
      confirmed && outcome.Ok?
    ensures confirmed && outcome.Ok? ==>
      forall d :: d in DeleteSection(m, id, confirmed, outcome, table, Ok(())).sections.rows <==>
        d in table && d.industry_id == m.industryId && d.id != id
  {
  }
}

=== FILE: listing.dfy ===
/** What the database returns for the industry-sections query
    `select("*").eq("industry_id", id).order("order_index", ascending)`:
    the rows of that industry, sorted by `order_index`.

    The database does not promise an order among rows with equal
    `order_index`; this model picks the stable one, and the contracts
    state only what holds for every tie order.
 */
module Listing {
  import opened Entities

  /** Ascending by `order_index`. */
  predicate SortedByOrderIndex(rows: seq<IndustryDetail>) {
    forall i, j :: 0 <= i < j < |rows| ==> rows[i].order_index <= rows[j].order_index
  }

  /** Every row belongs to `industryId`. */
  predicate AllOfIndustry(rows: seq<IndustryDetail>, industryId: string) {
    forall k :: 0 <= k < |rows| ==> rows[k].industry_id == industryId
  }

  /** `.eq("industry_id", industryId)`: rows of that industry only, in
      table order; `OfIndustryKeepsAll` shows that none is lost. */
  function OfIndustry(rows: seq<IndustryDetail>, industryId: string): (r: seq<IndustryDetail>)
    ensures AllOfIndustry(r, industryId)
    ensures |r| <= |rows|
  {
    if |rows| == 0 then []
    else
      var rest := OfIndustry(rows[1..], industryId);
      if rows[0].industry_id == industryId then [rows[0]] + rest else rest
  }

  /** The filter keeps every row of the industry, with its multiplicity,
      and nothing else. */
  lemma {:induction false} OfIndustryKeepsAll(rows: seq<IndustryDetail>, industryId: string)
    ensures forall d: IndustryDetail :: d.industry_id == industryId ==>
      multiset(OfIndustry(rows, industryId))[d] == multiset(rows)[d]
    ensures forall d :: d in OfIndustry(rows, industryId) <==> d in rows && d.industry_id == industryId
  {
    var r := OfIndustry(rows, industryId);
    if |rows| > 0 {
      var rest := OfIndustry(rows[1..], industryId);
      OfIndustryKeepsAll(rows[1..], industryId);
      assert rows == [rows[0]] + rows[1..];
      assert multiset(rows) == multiset{rows[0]} + multiset(rows[1..]);
      if rows[0].industry_id == industryId {
        assert r == [rows[0]] + rest;
        assert multiset(r) == multiset{rows[0]} + multiset(rest);
      } else {
        assert r == rest;
      }
      forall d | d in r
        ensures d.industry_id == industryId
      {
        var k :| 0 <= k < |r| && r[k] == d;
      }
    }
  }

  /** Place `d` in front of the first row with a larger `order_index`. */
  function Insert(d: IndustryDetail, sorted: seq<IndustryDetail>): (r: seq<IndustryDetail>)
    requires SortedByOrderIndex(sorted)
    ensures SortedByOrderIndex(r)
    ensures multiset(r) == multiset(sorted) + multiset{d}
    ensures |r| == |sorted| + 1 && (r[0] == d || (|sorted| > 0 && r[0] == sorted[0]))
  {
    if |sorted| == 0 then [d]
    else if d.order_index <= sorted[0].order_index then
      ConsSorted(d, sorted);
      [d] + sorted
    else
      var rest := Insert(d, sorted[1..]);
      assert sorted == [sorted[0]] + sorted[1..];
      assert multiset(sorted) == multiset{sorted[0]} + multiset(sorted[1..]);
      ConsSorted(sorted[0], rest);
      [sorted[0]] + rest
  }

  /** A row no larger than the head of a sorted list can go in front. */
  lemma ConsSorted(x: IndustryDetail, rest: seq<IndustryDetail>)
    requires SortedByOrderIndex(rest)
    requires |rest| == 0 || x.order_index <= rest[0].order_index
    ensures SortedByOrderIndex([x] + rest)
  {
  }

  /** `.order("order_index", { ascending: true })`: a permutation of
      `rows` sorted by `order_index`. */
  function SortByOrderIndex(rows: seq<IndustryDetail>): (r: seq<IndustryDetail>)
    ensures SortedByOrderIndex(r)
    ensures multiset(r) == multiset(rows)
  {
    if |rows| == 0 then []
    else
      assert rows == [rows[0]] + rows[1..];
      Insert(rows[0], SortByOrderIndex(rows[1..]))
  }

  /** The whole query: exactly the rows of `industryId` (with their
      multiplicities), ascending by `order_index`. */
  function SectionsOf(rows: seq<IndustryDetail>, industryId: string): (r: seq<IndustryDetail>)
    ensures SortedByOrderIndex(r)
    ensures AllOfIndustry(r, industryId)
    ensures forall d :: d in r <==> d in rows && d.industry_id == industryId
    ensures forall d: IndustryDetail :: d.industry_id == industryId ==> multiset(r)[d] == multiset(rows)[d]
  {
    var mine := OfIndustry(rows, industryId);
    OfIndustryKeepsAll(rows, industryId);
    var r := SortByOrderIndex(mine);
    assert forall d :: d in r <==> d in mine by {
      forall d ensures d in r <==> d in mine {
        assert d in r <==> d in multiset(r);
      }
    }
    assert AllOfIndustry(r, industryId) by {
      forall k | 0 <= k < |r| ensures r[k].industry_id == industryId {
        assert r[k] in multiset(mine);
      }
    }
    r
  }
}

=== FILE: posts_manager.dfy ===
/** The admin editor for `posts` (news items): a five-field form, an image
    staged by upload, and inserts stamped with the signed-in user.

    The upload handler repeats the one in IndustriesManager, as the source
    does, with the `posts` prefix and this editor's five-field form.
 */
module PostsManager {
  import opened Remote
  import opened Text
  import opened Entities
  import opened Crud
  import Storage

  /** The form record; `image_url` is `""` when no image is staged. */
  datatype Form = Form(title: string, summary: string, content: string, category: string, image_url: string)

  /** The form after mount, Cancel and every successful save. */
  const Blank: Form := Form("", "", "", "", "")

  /** The row an insert sends: the form plus its author (`user?.id`, absent
      when no user is signed in). */
  datatype NewPost = NewPost(form: Form, created_by: Option<string>)

  /** Uploads go under this prefix of the shared bucket. */
  const UploadPrefix: string := "posts"

  /** The manager: edit state and the upload-in-flight flag. */
  datatype Manager = Manager(editor: Editor<Form>, uploading: bool)

  /* ---------- image upload ---------- */

  /** An upload the handler started: the object path it writes and the
      form it captured when it started. */
  datatype Upload = Upload(path: string, captured: Form)

  /** `handleImageUpload` up to the storage call. Without a file nothing
      happens; otherwise `uploading` is raised and the object path is
      `posts/<stem>.<ext>`. */
  function StartUpload(m: Manager, file: Option<string>, stem: string): (r: (Manager, Option<Upload>))
    ensures file.None? ==> r.0 == m && r.1.None?
    ensures file.Some? ==> r.0 == m.(uploading := true) && r.1.Some?
    ensures file.Some? ==> r.1.value.captured == m.editor.form
    ensures file.Some? ==> r.1.value.path == "posts/" + stem + "." + FileExtension(file.value)
  {
    match file
    case None => (m, None)
    case Some(name) =>
      var path := Storage.UploadPath(UploadPrefix, stem, name);
      assert path == "posts/" + stem + "." + FileExtension(name) by {
        assert UploadPrefix + "/" == "posts/";
      }
      (m.(uploading := true), Some(Upload(path, m.editor.form)))
  }

  /** The storage call resolved, as the handler is written: a success
      stages the public URL into the form captured when the upload started,
      so an edit made while the upload was in flight is overwritten. */
  function FinishUploadAsWritten(m: Manager, up: Upload, publicUrl: Outcome<string>): (r: Manager)
    ensures !r.uploading
    ensures publicUrl.Ok? ==> r.editor.form == up.captured.(image_url := publicUrl.data)
    ensures publicUrl.Err? ==> r.editor == m.editor
    ensures r.editor.editing == m.editor.editing
  {
    match publicUrl
    case Err => m.(uploading := false)
    case Ok(url) => m.(editor := m.editor.(form := up.captured.(image_url := url)), uploading := false)
  }

  /** A title typed while the upload is in flight is lost when the upload
      succeeds. */
  lemma UploadOverwritesConcurrentEdit(m: Manager, fileName: string, stem: string, url: string)
    requires m.editor.form.title != "typed meanwhile"
    ensures
      var (busy, up) := StartUpload(m, Some(fileName), stem);
      var typed := busy.(editor := busy.editor.(form := busy.editor.form.(title := "typed meanwhile")));
      FinishUploadAsWritten(typed, up.value, Ok(url)).editor.form.title == m.editor.form.title
  {
  }

  /** The storage call resolved: a success stages the public URL into the
      current form and changes nothing else; a failure changes nothing but
      `uploading`, which ends in either case. */
  function FinishUpload(m: Manager, publicUrl: Outcome<string>): (r: Manager)
    ensures !r.uploading
    ensures publicUrl.Ok? ==> r.editor.form == m.editor.form.(image_url := publicUrl.data)
    ensures publicUrl.Err? ==> r.editor == m.editor
    ensures r.editor.editing == m.editor.editing
  {
    match publicUrl
    case Err => m.(uploading := false)
    case Ok(url) => m.(editor := m.editor.(form := m.editor.form.(image_url := url)), uploading := false)
  }

  /** With the current form, an edit made during the upload survives it. */
  lemma UploadKeepsConcurrentEdit(m: Manager, fileName: string, stem: string, title: string, url: string)
    ensures
      var (busy, _) := StartUpload(m, Some(fileName), stem);
      var typed := busy.(editor := busy.editor.(form := busy.editor.form.(title := title)));
      FinishUpload(typed, Ok(url)).editor.form == m.editor.form.(title := title, image_url := url)
  {
  }

  /** The submit button is disabled while an upload is in flight. */
  predicate CanSubmit(m: Manager) {
    !m.uploading
  }

  /** Submit is blocked from the start of an upload until it resolves,
      whatever the outcome, and is available again afterwards if it was
      before. */
  lemma UploadBlocksSubmit(m: Manager, fileName: string, stem: string, publicUrl: Outcome<string>)
    requires CanSubmit(m)
    ensures !CanSubmit(StartUpload(m, Some(fileName), stem).0)
    ensures CanSubmit(FinishUpload(StartUpload(m, Some(fileName), stem).0, publicUrl))
  {
  }

  /* ---------- the edit state machine ---------- */

  /** `handleSubmit`'s write: an update keyed by the edited post carrying
      just the form, or an insert stamped with the signed-in user's id. */
  function SubmitWrite(m: Manager, user: Option<User>): (w: Write<Form, NewPost>)
    ensures w.Update? <==> IsEditing(m.editor)
    ensures w.Update? ==> w.id == m.editor.editing.value && w.changes == m.editor.form
    ensures w.Insert? ==> w.row.form == m.editor.form
    ensures w.Insert? && user.Some? ==> w.row.created_by == Some(user.value.id)
    ensures w.Insert? && user.None? ==> w.row.created_by == None
  {
    var author := match user
      case Some(u) => Some(u.id)
      case None => None;
    PlanWrite(m.editor, m.editor.form, NewPost(m.editor.form, author))
  }

  /** The write of `handleSubmit` resolved: success resets the form,
      leaves edit mode and refetches the list; an error changes nothing and
      refetches nothing. */
  function Submit(m: Manager, outcome: Outcome<()>): (r: Settled<Manager>)
    ensures outcome.Ok? ==> r.state.editor.form == Form("", "", "", "", "") && !IsEditing(r.state.editor)
    ensures outcome.Err? ==> r.state == m
    ensures r.refetch <==> outcome.Ok?
    ensures r.state.uploading == m.uploading
  {
    var step := Settle(m.editor, Blank, outcome);
    Settled(m.(editor := step.state), step.refetch)
  }

  /** `handleEdit(post)`: edit that post; a missing content or image
      becomes `""`. */
  function Edit(m: Manager, post: Post): (r: Manager)
    ensures r.editor.editing == Some(post.id)
    ensures r.editor.form.title == post.title && r.editor.form.summary == post.summary
    ensures r.editor.form.category == post.category
    ensures post.content.Some? ==> r.editor.form.content == post.content.value
    ensures post.content.None? ==> r.editor.form.content == ""
    ensures post.image_url.Some? ==> r.editor.form.image_url == post.image_url.value
    ensures post.image_url.None? ==> r.editor.form.image_url == ""
    ensures r.uploading == m.uploading
  {
    m.(editor := Editor(Some(post.id),
        Form(post.title, post.summary, OrEmpty(post.content), post.category, OrEmpty(post.image_url))))
  }

  /** Editing a post and saving it unchanged updates that post, without
      touching its author, with its own title, summary and category; a
      stored null content or image is written back as `""`. */
  lemma EditThenSaveIsUpdate(m: Manager, post: Post, user: Option<User>)
    requires post.id != ""
    ensures SubmitWrite(Edit(m, post), user).Update?
    ensures SubmitWrite(Edit(m, post), user).id == post.id
    ensures SubmitWrite(Edit(m, post), user).changes
      == Form(post.title, post.summary, post.content.GetOr(""), post.category, post.image_url.GetOr(""))
    ensures post.content.None? ==> SubmitWrite(Edit(m, post), user).changes.content == ""
    ensures post.image_url.None? ==> SubmitWrite(Edit(m, post), user).changes.image_url == ""
  {
  }

  /** The Cancel button. */
  function CancelEdit(m: Manager): (r: Manager)
    ensures r.editor.editing == None && r.editor.form == Form("", "", "", "", "")
    ensures r.uploading == m.uploading
  {
    m.(editor := Cancel(Blank))
  }
}

=== FILE: remote.dfy ===
/** Shared vocabulary for the client-side state around the hosted backend.

    Every call to the database, the storage service or the auth service is
    external I/O. The model never performs one: the caller supplies the
    outcome the backend produced, and the client-side logic is a pure
    function of it.
 */
module Remote {

  /** A value that may be absent: a JavaScript `null`/`undefined`. */
  datatype Option<+T> = None | Some(value: T) {

    /** The value, or `default` when absent (the `x || default` idiom for
        values that are never falsy when present). */
    function GetOr(default: T): T {
      match this
      case Some(v) => v
      case None => default
    }
  }

  /** The `{ data, error }` pair a backend call resolves to: either the
      call succeeded with `data`, or it reported an error. */
  datatype Outcome<+T> = Ok(data: T) | Err

  /** JavaScript truthiness of a `string | null` value: `null` and the
      empty string are both falsy. */
  predicate Truthy(s: Option<string>) {
    s.Some? && s.value != ""
  }

  /** `s || ""` on a nullable string. */
  function OrEmpty(s: Option<string>): (r: string)
    ensures s.Some? ==> r == s.value
    ensures s.None? ==> r == ""
  {
    s.GetOr("")
  }
}

=== FILE: service_detail.dfy ===
/** The public page of one service, `/services/:serviceId`: a single-row
    lookup by id, then a not-found view or the service with its icon and
    hero image.
 */
module ServiceDetail {
  import opened Remote
  import opened Entities

  /** The page state: the spinner flag and the service found, if any. */
  datatype Page = Page(loading: bool, service: Option<Service>)

  /** As mounted: loading, nothing found yet. */
  const Initial: Page := Page(true, None)

  /** The page after `fetchServiceData`, with the ids it looked up. */
  datatype Fetched = Fetched(page: Page, lookups: seq<string>)

  /** `fetchServiceData`; `lookup` is the outcome of the `maybeSingle`
      query (a row or `null`). Without an id nothing is queried and the page
      is left as it was. Otherwise loading ends; only a row that was found
      is stored, so an error or a miss leaves `service` as it was. */
  function Fetch(p: Page, serviceId: Option<string>, lookup: Outcome<Option<Service>>): (r: Fetched)
    ensures !Truthy(serviceId) ==> r.page == p && r.lookups == []
    ensures Truthy(serviceId) ==> r.lookups == [serviceId.value] && !r.page.loading
    ensures Truthy(serviceId) && lookup.Ok? && lookup.data.Some? ==> r.page.service == lookup.data
    ensures Truthy(serviceId) && !(lookup.Ok? && lookup.data.Some?) ==> r.page.service == p.service
  {
    if !Truthy(serviceId) then Fetched(p, [])
    else
      var service := match lookup
        case Err => p.service
        case Ok(None) => p.service
        case Ok(Some(s)) => Some(s);
      Fetched(Page(false, service), [serviceId.value])
  }

  /* ---------- icon and image lookup ---------- */

  /** The icon used when a service names no icon the library exports. */
  const DefaultIcon: string := "MessageSquare"

  /** `getIcon(iconName)`: the library's component of that name, modelled by
      its name, or the default icon on a miss; it never fails. */
  function GetIcon(library: set<string>, iconName: string): (icon: string)
    ensures iconName in library ==> icon == iconName
    ensures iconName !in library ==> icon == DefaultIcon
    ensures icon in library || icon == DefaultIcon
  {
    if iconName in library then iconName else DefaultIcon
  }

  /** With the default icon in the library, the resolved icon is always one
      the library exports, so the page never renders a missing component. */
  lemma GetIconAlwaysResolves(library: set<string>, iconName: string)
    requires DefaultIcon in library
    ensures GetIcon(library, iconName) in library
    ensures GetIcon(library, iconName) != iconName ==> GetIcon(library, iconName) == DefaultIcon
  {
  }

  /** The hero images of the six services the site was seeded with, keyed by
      exact title. */
  const ServiceImages: map<string, string> := map[
    "AI Strategy & Consulting" := "ai-strategy.jpg",
    "Custom AI Model Development" := "custom-ai-model.jpg",
    "Process Automation" := "process-automation.jpg",
    "Predictive Analytics" := "predictive-analytics.jpg",
    "Computer Vision Solutions" := "computer-vision.jpg",
    "Natural Language Processing" := "nlp-ai.jpg"
  ]

  /** The properties every plain JavaScript object literal inherits from
      `Object.prototype` (all functions, except `__proto__`, which is the
      prototype object itself); reading one of them from `serviceImages`
      gives a truthy value. */
  const InheritedKeys: set<string> := {
    "constructor", "hasOwnProperty", "isPrototypeOf", "propertyIsEnumerable",
    "toLocaleString", "toString", "valueOf", "__proto__",
    "__defineGetter__", "__defineSetter__", "__lookupGetter__", "__lookupSetter__"
  }

  /** What `serviceImages[title]` reads: one of the six images, an
      inherited property, or `undefined`. */
  datatype Hero = Missing | Asset(file: string) | Inherited(key: string)

  /** `{serviceImage && ...}`: the hero image block renders for any truthy
      lookup, inherited properties included. */
  predicate ShowsHero(h: Hero) {
    !h.Missing?
  }

  /** `serviceImages[service.title]`: the image for the six seeded titles,
      the inherited property for a name `Object.prototype` carries, and
      `undefined` for any other title. */
  function HeroImage(title: string): (image: Hero)
    ensures image.Asset? <==> title in {"AI Strategy & Consulting", "Custom AI Model Development",
                                      "Process Automation", "Predictive Analytics",
                                      "Computer Vision Solutions", "Natural Language Processing"}
    ensures image.Inherited? <==> title in InheritedKeys
    ensures image.Inherited? ==> image.key == title
    ensures title in ServiceImages ==> image == Asset(ServiceImages[title])
  {
    if title in ServiceImages then Asset(ServiceImages[title])
    else if title in InheritedKeys then Inherited(title)
    else Missing
  }

  /** The hero block renders exactly for the six seeded titles and for the
      names of inherited properties; a title such as `constructor` renders
      it without an image behind it. */
  lemma HeroShownFor(title: string)
    ensures ShowsHero(HeroImage(title)) <==> title in ServiceImages || title in InheritedKeys
    ensures ShowsHero(HeroImage("constructor")) && !HeroImage("constructor").Asset?
  {
  }

  /* ---------- rendering ---------- */

  /** What the page shows. */
  datatype View = Spinner | NotFound | Shown(service: Service, icon: string, hero: Hero)

  /** The render: spinner while loading, then not-found without a service,
      otherwise the service with its resolved icon and image. */
  function Render(p: Page, library: set<string>): (v: View)
    ensures p.loading <==> v == Spinner
    ensures !p.loading && p.service.None? <==> v == NotFound
    ensures v.Shown? ==> Some(v.service) == p.service
    ensures v.Shown? ==> v.icon == GetIcon(library, v.service.icon) && v.hero == HeroImage(v.service.title)
  {
    if p.loading then Spinner
    else match p.service
      case None => NotFound
      case Some(s) => Shown(s, GetIcon(library, s.icon), HeroImage(s.title))
  }

  /** A visit with an id: an error or a missing row ends on the not-found
      view, a row is shown; exactly one lookup is issued either way. */
  lemma VisitResolves(serviceId: string, lookup: Outcome<Option<Service>>, library: set<string>)
    requires serviceId != ""
    ensures Fetch(Initial, Some(serviceId), lookup).lookups == [serviceId]
    ensures !(lookup.Ok? && lookup.data.Some?) ==> Render(Fetch(Initial, Some(serviceId), lookup).page, library) == NotFound
    ensures lookup.Ok? && lookup.data.Some? ==> Render(Fetch(Initial, Some(serviceId), lookup).page, library).Shown?
    ensures lookup.Ok? && lookup.data.Some? ==> Render(Fetch(Initial, Some(serviceId), lookup).page, library).service == lookup.data.value
  {
  }
}

=== FILE: services_manager.dfy ===
/** The admin editor for `services`: a form with a title, a description,
    an icon name and an editable list of feature lines. Saving drops the
    blank feature lines and keeps the others in order.
 */
module ServicesManager {
  import opened Remote
  import opened Text
  import opened Entities
  import opened Crud

  /** The form record; `features` is one string per feature row. */
  datatype Form = Form(title: string, description: string, icon: string, features: seq<string>)

  /** The form after mount, Cancel and every successful save: one empty
      feature row and the `MessageSquare` icon. */
  const Blank: Form := Form("", "", "MessageSquare", [""])

  type State = Editor<Form>

  /* ---------- the feature-list editor ---------- */

  /** "Add Feature": one more, empty, row at the end. */
  function AddFeature(form: Form): (r: Form)
    ensures |r.features| == |form.features| + 1
    ensures r.features[..|form.features|] == form.features
    ensures r.features[|form.features|] == ""
    ensures r.title == form.title && r.description == form.description && r.icon == form.icon
  {
    form.(features := form.features + [""])
  }

  /** Typing into feature row `index`. The form only offers the rows it
      renders, so `index` is one of them. */
  function UpdateFeature(form: Form, index: int, value: string): (r: Form)
    requires 0 <= index < |form.features|
    ensures |r.features| == |form.features|
    ensures r.features[index] == value
    ensures forall k :: 0 <= k < |form.features| && k != index ==> r.features[k] == form.features[k]
    ensures r.title == form.title && r.description == form.description && r.icon == form.icon
  {
    form.(features := form.features[index := value])
  }

  /** `features.filter((_, i) => i !== index)`, element by element. */
  function DropIndex(features: seq<string>, index: int): (r: seq<string>)
    ensures 0 <= index < |features| ==> r == features[..index] + features[index + 1..]
    ensures !(0 <= index < |features|) ==> r == features
  {
    if |features| == 0 then []
    else
      var rest := DropIndex(features[1..], index - 1);
      assert features == [features[0]] + features[1..];
      if index == 0 then rest else [features[0]] + rest
  }

  /** "Remove" on feature row `index`: only that row goes; an index outside
      the list changes nothing. */
  function RemoveFeature(form: Form, index: int): (r: Form)
    ensures 0 <= index < |form.features| ==> |r.features| == |form.features| - 1
    ensures 0 <= index < |form.features| ==>
      forall k :: 0 <= k < |r.features| ==>
        r.features[k] == if k < index then form.features[k] else form.features[k + 1]
    ensures !(0 <= index < |form.features|) ==> r.features == form.features
    ensures r.title == form.title && r.description == form.description && r.icon == form.icon
  {
    form.(features := DropIndex(form.features, index))
  }

  /** Removing the row just added gives back the form it was added to. */
  lemma RemoveUndoesAdd(form: Form)
    ensures RemoveFeature(AddFeature(form), |form.features|) == form
  {
    assert AddFeature(form).features[..|form.features|] == form.features;
  }

  /** Typing a row's old text back restores the form. */
  lemma UpdateRestores(form: Form, index: int, value: string)
    requires 0 <= index < |form.features|
    ensures UpdateFeature(UpdateFeature(form, index, value), index, form.features[index]) == form
  {
  }

  /* ---------- normalisation on save ---------- */

  /** `features.filter(f => f.trim() !== "")`: the feature lines sent to
      the database. A line passes when it is not blank, which by the
      contract of `Trim` is exactly when its trim is not empty. */
  function KeepFilled(features: seq<string>): (r: seq<string>)
    ensures |r| <= |features|
    ensures forall k :: 0 <= k < |r| ==> !IsBlank(r[k])
    ensures forall f :: f in r <==> f in features && !IsBlank(f)
  {
    if |features| == 0 then []
    else
      var head := features[0];
      var tail := features[1..];
      var rest := KeepFilled(tail);
      var keep := !IsBlank(head);
      assert forall f :: f in features <==> f == head || f in tail by {
        assert features == [head] + tail;
      }
      if keep then
        var r := [head] + rest;
        assert forall f :: f in r <==> f == head || f in rest;
        assert forall k :: 0 < k < |r| ==> r[k] == rest[k - 1];
        r
      else rest
  }

  /** The filter commutes with concatenation: blank lines are dropped
      where they stand, and the surviving lines keep their relative order. */
  lemma {:induction false} KeepFilledAppend(a: seq<string>, b: seq<string>)
    ensures KeepFilled(a + b) == KeepFilled(a) + KeepFilled(b)
  {
    if |a| == 0 {
      assert a + b == b;
    } else {
      assert (a + b)[1..] == a[1..] + b;
      KeepFilledAppend(a[1..], b);
    }
  }

  /** A single line survives exactly when it is not blank. */
  lemma KeepFilledSingle(f: string)
    ensures KeepFilled([f]) == if IsBlank(f) then [] else [f]
  {
    assert [f][1..] == [];
  }

  /** The filter is `f.trim() !== ""`: a line survives exactly when its
      trim is not empty. */
  lemma KeepFilledMatchesTrim(f: string)
    ensures KeepFilled([f]) == if Trim(f) != "" then [f] else []
  {
    KeepFilledSingle(f);
  }

  /** Normalising twice is normalising once: a saved list is left alone by
      the next save. */
  lemma {:induction false} KeepFilledIdempotent(features: seq<string>)
    ensures KeepFilled(KeepFilled(features)) == KeepFilled(features)
  {
    if |features| > 0 {
      var rest := features[1..];
      assert features == [features[0]] + rest;
      KeepFilledIdempotent(rest);
      if !IsBlank(features[0]) {
        KeepFilledAppend([features[0]], KeepFilled(rest));
        KeepFilledSingle(features[0]);
      }
    }
  }

  /** A list without blank lines is already normal. */
  lemma {:induction false} KeepFilledOfFilled(features: seq<string>)
    requires forall k :: 0 <= k < |features| ==> !IsBlank(features[k])
    ensures KeepFilled(features) == features
  {
    if |features| > 0 {
      assert features == [features[0]] + features[1..];
      KeepFilledOfFilled(features[1..]);
    }
  }

  /** `serviceData`: the form with its blank feature lines dropped. */
  function Payload(form: Form): (r: Form)
    ensures r.title == form.title && r.description == form.description && r.icon == form.icon
    ensures forall k :: 0 <= k < |r.features| ==> !IsBlank(r.features[k])
    ensures forall f :: f in r.features <==> f in form.features && !IsBlank(f)
  {
    form.(features := KeepFilled(form.features))
  }

  /* ---------- the edit state machine ---------- */

  /** `handleSubmit`'s write: an update of the edited service or an insert,
      both carrying the normalised form. */
  function SubmitWrite(st: State): (w: Write<Form, Form>)
    ensures w.Update? <==> IsEditing(st)
    ensures w.Update? ==> w.id == st.editing.value && w.changes == Payload(st.form)
    ensures w.Insert? ==> w.row == Payload(st.form)
  {
    PlanWrite(st, Payload(st.form), Payload(st.form))
  }

  /** The write of `handleSubmit` resolved. */
  function Submit(st: State, outcome: Outcome<()>): (r: Settled<State>)
    ensures outcome.Ok? ==> r.state.form == Form("", "", "MessageSquare", [""])
    ensures outcome.Ok? ==> !IsEditing(r.state) && r.refetch
    ensures outcome.Err? ==> r.state == st && !r.refetch
  {
    Settle(st, Blank, outcome)
  }

  /** `handleEdit(service)`: edit that service; a service without features
      gets one empty row, so the form always shows at least one. */
  function Edit(service: Service): (r: State)
    ensures r.editing == Some(service.id)
    ensures r.form.title == service.title && r.form.description == service.description
    ensures r.form.icon == service.icon
    ensures |r.form.features| >= 1
    ensures |service.features| > 0 ==> r.form.features == service.features
    ensures |service.features| == 0 ==> r.form.features == [""]
  {
    Editor(Some(service.id), Form(service.title, service.description, service.icon,
                                  if |service.features| > 0 then service.features else [""]))
  }

  /** The Cancel button. */
  function CancelEdit(): (r: State)
    ensures r.editing == None && r.form == Form("", "", "MessageSquare", [""])
  {
    Cancel(Blank)
  }

  /** Opening a saved service and saving it unchanged writes back exactly
      what was stored: an update of that service with the same fields
      (a stored empty list goes through the `[""]` row and back to empty). */
  lemma EditThenSaveRoundTrip(service: Service)
    requires service.id != ""
    requires forall k :: 0 <= k < |service.features| ==> !IsBlank(service.features[k])
    ensures SubmitWrite(Edit(service))
         == Update(service.id, Form(service.title, service.description, service.icon, service.features))
  {
    KeepFilledOfFilled(service.features);
    KeepFilledSingle("");
  }
}

=== FILE: storage.dfy ===
/** Object paths of image uploads: `<prefix>/<random>.<ext>` in the
    `content-images` bucket both upload handlers write to, where `<ext>` is
    the uploaded file name's extension.
 */
module Storage {
  import opened Text

  /** `${prefix}/${Math.random()}.${file.name.split(".").pop()}`; the random
      part is the `stem` argument. */
  function UploadPath(prefix: string, stem: string, fileName: string): (path: string)
    ensures |path| > |prefix| && path[..|prefix| + 1] == prefix + "/"
    ensures path[|prefix| + 1..] == stem + "." + FileExtension(fileName)
  {
    var path := prefix + "/" + stem + "." + FileExtension(fileName);
    assert path == (prefix + "/") + (stem + "." + FileExtension(fileName));
    path
  }

  /** The extension is determined by the text after the last dot. */
  lemma ExtensionOfDottedSuffix(s: string, head: string, ext: string)
    requires '.' !in ext
    requires s == head + "." + ext
    ensures FileExtension(s) == ext
  {
    var r := FileExtension(s);
    assert s[|head|] == '.';
    assert r == s[|s| - |ext|..] == ext;
  }

  /** The uploaded object keeps the original file's extension, whatever the
      random stem (which itself contains a dot). */
  lemma UploadKeepsExtension(prefix: string, stem: string, fileName: string)
    ensures FileExtension(UploadPath(prefix, stem, fileName)) == FileExtension(fileName)
  {
    var ext := FileExtension(fileName);
    ExtensionOfDottedSuffix(UploadPath(prefix, stem, fileName), prefix + "/" + stem, ext);
  }
}

=== FILE: text.dfy ===
/** The JavaScript string operations the admin forms rely on:
    `String.prototype.trim` (feature normalisation) and
    `name.split(".").pop()` (file-extension extraction for uploads).
 */
module Text {

  /** ECMAScript WhiteSpace and LineTerminator code points: the characters
      `trim` removes (section 22.1.3.32 of ECMA-262 refers to both
      productions; the space separators are the Unicode category Zs). */
  const WhiteSpace: set<char> := {
    '\t', '\U{000B}', '\U{000C}', ' ', '\U{00A0}', '\U{FEFF}', '\U{1680}',
    '\U{2000}', '\U{2001}', '\U{2002}', '\U{2003}', '\U{2004}', '\U{2005}',
    '\U{2006}', '\U{2007}', '\U{2008}', '\U{2009}', '\U{200A}',
    '\U{202F}', '\U{205F}', '\U{3000}',
    '\n', '\r', '\U{2028}', '\U{2029}'
  }

  predicate IsWhiteSpace(c: char) {
    c in WhiteSpace
  }

  /** Every character of `s` is white space (the empty string included). */
  predicate IsBlank(s: string) {
    AllIn(s, WhiteSpace)
  }

  /** Every character of `s` is in `cs`. */
  predicate AllIn(s: string, cs: set<char>) {
    forall i :: 0 <= i < |s| ==> s[i] in cs
  }

  /** Drop the leading characters that are in `cs`. */
  function DropLeading(s: string, cs: set<char>): (r: string)
    ensures |r| <= |s| && r == s[|s| - |r|..]
    ensures AllIn(s[..|s| - |r|], cs)
    ensures r == [] || r[0] !in cs
  {
    if |s| > 0 && s[0] in cs then
      var r := DropLeading(s[1..], cs);
      assert s[..|s| - |r|] == [s[0]] + s[1..][..|s| - 1 - |r|];
      r
    else s
  }

  /** Drop the trailing characters that are in `cs`. */
  function DropTrailing(s: string, cs: set<char>): (r: string)
    ensures |r| <= |s| && r == s[..|r|]
    ensures AllIn(s[|r|..], cs)
    ensures r == [] || r[|r| - 1] !in cs
  {
    if |s| > 0 && s[|s| - 1] in cs then
      var r := DropTrailing(s[..|s| - 1], cs);
      assert s[|r|..] == s[..|s| - 1][|r|..] + [s[|s| - 1]];
      r
    else s
  }

  /** A concatenation is made of `cs` characters exactly when both parts
      are. */
  lemma AllInAppend(a: string, b: string, cs: set<char>)
    ensures AllIn(a + b, cs) <==> AllIn(a, cs) && AllIn(b, cs)
  {
    if AllIn(a, cs) && AllIn(b, cs) {
      forall k | 0 <= k < |a + b|
        ensures (a + b)[k] in cs
      {
        if k >= |a| {
          assert (a + b)[k] == b[k - |a|];
        }
      }
    }
    if AllIn(a + b, cs) {
      forall k | 0 <= k < |a|
        ensures a[k] in cs
      {
        assert a[k] == (a + b)[k];
      }
      forall k | 0 <= k < |b|
        ensures b[k] in cs
      {
        assert b[k] == (a + b)[|a| + k];
      }
    }
  }

  /** `r` is the slice of `s` that starts at `i`, and what lies before and
      after it in `s` is made of `cs` characters. */
  predicate InnerSlice(r: string, s: string, i: int, cs: set<char>) {
    0 <= i <= i + |r| <= |s| && r == s[i..i + |r|] && AllIn(s[..i], cs) && AllIn(s[i + |r|..], cs)
  }

  /** `s` without its leading and trailing characters from `cs`: the
      slice between a prefix and a suffix made of `cs` characters, empty
      exactly when every character of `s` is in `cs`. */
  function Strip(s: string, cs: set<char>): (r: string)
    ensures exists i :: InnerSlice(r, s, i, cs)
    ensures r == [] || (r[0] !in cs && r[|r| - 1] !in cs)
    ensures r == [] <==> AllIn(s, cs)
  {
    var t := DropLeading(s, cs);
    var r := DropTrailing(t, cs);
    PeeledIsInnerSlice(s, t, r, cs);
    r
  }

  /** The two peeling steps of `Strip`, stated on their results: what is
      left is the inner slice, and it is empty exactly when `s` is made of
      `cs` characters. */
  lemma PeeledIsInnerSlice(s: string, t: string, r: string, cs: set<char>)
    requires |t| <= |s| && t == s[|s| - |t|..] && AllIn(s[..|s| - |t|], cs)
    requires |r| <= |t| && r == t[..|r|] && AllIn(t[|r|..], cs)
    requires r == [] || r[0] !in cs
    ensures InnerSlice(r, s, |s| - |t|, cs)
    ensures r == [] <==> AllIn(s, cs)
  {
    var i := |s| - |t|;
    var lead, trail := s[..i], t[|r|..];
    assert s == lead + t;
    assert t == r + trail;
    assert s[i..i + |r|] == r;
    assert s[i + |r|..] == trail;
    AllInAppend(lead, t, cs);
    AllInAppend(r, trail, cs);
    assert r != [] ==> !AllIn(r, cs);
  }

  /** `s.trim()`: `s` without its leading and trailing white space. It is
      empty exactly when `s` is blank, which is what the feature filter of
      the services form relies on. */
  function Trim(s: string): (r: string)
    ensures exists i :: InnerSlice(r, s, i, WhiteSpace)
    ensures r == [] || (!IsWhiteSpace(r[0]) && !IsWhiteSpace(r[|r| - 1]))
    ensures r == "" <==> IsBlank(s)
  {
    var r := Strip(s, WhiteSpace);
    r
  }

  /** `segments.join([sep])`: the inverse of `Split`. */
  function Join(segments: seq<string>, sep: char): (r: string)
    requires |segments| >= 1
  {
    if |segments| == 1 then segments[0]
    else segments[0] + [sep] + Join(segments[1..], sep)
  }

  /** `s.split(sep)` for a one-character separator: the maximal runs of
      characters other than `sep`, in order, with an empty segment before a
      leading, after a trailing and between two adjacent separators. */
  function Split(s: string, sep: char): (r: seq<string>)
    ensures |r| >= 1
    ensures forall k :: 0 <= k < |r| ==> sep !in r[k]
    ensures Join(r, sep) == s
  {
    if |s| == 0 then [""]
    else
      var rest := Split(s[1..], sep);
      if s[0] == sep then [""] + rest
      else
        assert sep !in [s[0]] + rest[0];
        [[s[0]] + rest[0]] + rest[1..]
  }

  /** Peeling the last segment off a join. */
  lemma {:induction false} JoinLast(segments: seq<string>, sep: char)
    requires |segments| >= 2
    ensures Join(segments, sep)
         == Join(segments[..|segments| - 1], sep) + [sep] + segments[|segments| - 1]
  {
    if |segments| == 2 {
      assert segments[1..] == [segments[1]];
    } else {
      JoinLast(segments[1..], sep);
      assert segments[1..][..|segments| - 2] == segments[..|segments| - 1][1..];
    }
  }

  /** `name.split(".").pop()`: the text after the last `.` of `name`, or
      all of `name` when it has no `.`. */
  function FileExtension(name: string): (ext: string)
    ensures '.' !in ext
    ensures |ext| <= |name| && ext == name[|name| - |ext|..]
    ensures '.' !in name ==> ext == name
    ensures '.' in name ==> |ext| < |name| && name[|name| - |ext| - 1] == '.'
  {
    var segments := Split(name, '.');
    var ext := segments[|segments| - 1];
    if |segments| == 1 then
      ext
    else
      JoinLast(segments, '.');
      ext
  }
}
